=== FILE: README.md ===
# Branch & Bound knapsack solver — a Dafny model

This project models the 0/1 knapsack solver behind the stock-management app
(`GestaoDeEstoques/GS_otimizado.py`). Each product has an estimated profit (its
*value*) and a volume (its *weight*). The solver searches for a subset of
products with a large total profit whose volume fits the capacity `W`. The
result is not guaranteed to be optimal: the bound below is 0 for a node that
fills `W` exactly, and the node and time budgets can stop the search early
(see "## Left out"). It works in four stages:

- **Ratio sort.** The solver sorts the products by profit per volume, descending. A 1e-9 is added to the volume before dividing.
- **Greedy primal.** A greedy pass produces the first incumbent solution.
- **Best-first search.** The solver explores a tree of include/exclude decisions, taking nodes from a priority queue keyed by `(-bound, insertion number)`.
  - It prunes nodes whose bound does not beat the incumbent.
  - It records complete solutions at the last level.
  - It counts expansions, pruned nodes, feasible solutions, the deepest level and the expansions per level.
- **Fractional bound.** A node whose weight is already at or above `W` gets bound 0. Otherwise its bound is its value, plus the whole items that still fit in ratio order, plus a fractional share of the first item that does not fit.

The modules follow that structure:

- `Sums`: sums over a value or weight column, either over a range of indices or over the positions a 0/1 vector selects.
- `Knapsack`: the data model. Items, the prepared instance (items in ratio order, their value and weight columns, the capacity), search nodes and the incumbent.
- `Preprocess`: the ratio sort and the construction of the instance.
- `Bound`: the bound of a node.
- `Greedy`: the greedy primal.
- `Search`: the priority queue, child generation, the loop and its counters, and the wrapper.

Values, weights and the capacity are exact reals and must be non-negative. The
1e-9 is the constant `Knapsack.EPS`.

## Model

| member | source | states |
|---|---|---|
| Preprocess.InsertByRatio | GestaoDeEstoques/GS_otimizado.py:16-17 | inserting an item into a ratio-sorted sequence yields a ratio-sorted permutation of the sequence plus that item |
| Preprocess.SortByRatio | GestaoDeEstoques/GS_otimizado.py:16-17 | the result is a permutation of the items, ordered by value/(weight+1e-9), descending |
| Preprocess.Prepare | GestaoDeEstoques/GS_otimizado.py:14-23 | the instance holds a ratio-sorted permutation of the items and the given capacity; with a non-negative capacity its value and weight columns are exactly the sorted items' values and weights |
| Bound.GreedyFill | GestaoDeEstoques/GS_otimizado.py:47-54 | the fill stops at index next ≥ j; it has added exactly the weights and values of items j..next-1; its running weight stays within W; when next < n, item next would overflow W |
| Bound.CalculateBound | GestaoDeEstoques/GS_otimizado.py:43-59 | the bound is exactly 0 when the node's weight is ≥ W; below W it lies between the node's value and that value plus every undecided item's value |
| Bound.BoundBelowRemaining | GestaoDeEstoques/GS_otimizado.py:43-59 | for a node with a non-negative value, at any weight, its bound is at most its value plus the values of all undecided items |
| Bound.FractionBetween | GestaoDeEstoques/GS_otimizado.py:56-58 | the fractional term adds between 0 and the item's whole value when the remaining capacity is at most the item's weight |
| Bound.FillStopsAtCriticalIndex | GestaoDeEstoques/GS_otimizado.py:51-54 | the fill stops at the critical index: all items before it fit together and the next one does not |
| Bound.BoundAtCriticalIndex | GestaoDeEstoques/GS_otimizado.py:43-59 | below capacity, for any index k where every undecided item before k fits and item k does not, the fill loop stops exactly at k and the bound equals the textbook fractional bound written around k |
| Bound.EpsilonShrinksFraction | GestaoDeEstoques/GS_otimizado.py:58 | because of the 1e-9 in the denominator, the fractional term is at most the exact linear-relaxation share value·remaining/weight |
| Bound.BoundIgnoresStoredBound | GestaoDeEstoques/GS_otimizado.py:86-87 | the bound reads only level, value and weight, so computing it on a node with a placeholder bound of 0.0 gives the same result |
| Greedy.GreedyPrefix | GestaoDeEstoques/GS_otimizado.py:63-70 | after deciding the first k items, the running weight and value are the sums over the chosen items, and the weight stays within W |
| Greedy.GreedyPrimal | GestaoDeEstoques/GS_otimizado.py:61-71 | the greedy result is a 0/1 vector of length n; its selected weight is within W and its value equals its selected value sum |
| Greedy.GreedyPrefixExtends | GestaoDeEstoques/GS_otimizado.py:66-70 | deciding later items never changes an earlier decision |
| Greedy.GreedyChoice | GestaoDeEstoques/GS_otimizado.py:67-70 | item i is taken if and only if it fits on top of the items taken before it |
| Greedy.GreedyIsMaximal | GestaoDeEstoques/GS_otimizado.py:66-70 | no item the greedy leaves out could be added to its solution without exceeding W |
| Search.PopIndex | GestaoDeEstoques/GS_otimizado.py:97 | the chosen entry's key (-bound, insertion number) is not above any other key in the queue |
| Search.PopIsDetermined | GestaoDeEstoques/GS_otimizado.py:88 | insertion numbers are distinct, so no two entries tie on the key and the entry handed out is unique |
| Search.Pop | GestaoDeEstoques/GS_otimizado.py:97 | heap pop: a minimum-key entry leaves the queue and nothing else changes; the rest of the queue keeps the frontier invariant; the termination measure drops by the popped node's subtree |
| Search.Extend | GestaoDeEstoques/GS_otimizado.py:109-112 | a child is one level deeper than its parent; its vector is the parent's with only index level+1 set (1 for take, 0 for leave); its sums stay consistent with the vector; the leave child keeps the parent's value, weight and vector |
| Search.WithBound | GestaoDeEstoques/GS_otimizado.py:115-116 | the child keeps its level, value, weight and vector, and carries exactly the bound computed for it |
| Search.Offer | GestaoDeEstoques/GS_otimizado.py:121-123 | the incumbent's value and vector change together, only to the offered pair, and exactly when the offered value is strictly larger; the value never decreases |
| Search.Place | GestaoDeEstoques/GS_otimizado.py:118-127 | a placed child at the last level counts as feasible and is offered to the incumbent; the incumbent changes only there and only to a strictly larger value; a queued child keeps the frontier invariant; the sum of the feasible count, the pruned count and the queue size grows by one and the feasible count never drops (Search.PlaceRules gives which counter grows) |
| Search.PlaceRules | GestaoDeEstoques/GS_otimizado.py:118-127 | the three decision rules for a child: at the last level it is counted feasible and offered; above it, it is queued with the next insertion number exactly when its bound is strictly greater than the incumbent, and counted as pruned otherwise |
| Search.TakeBranch | GestaoDeEstoques/GS_otimizado.py:109-130 | the take child keeps the frontier invariant and a feasible incumbent; the incumbent changes only when the child is at the last level and only to a strictly larger value; one child is accounted for |
| Search.TakeBranchRules | GestaoDeEstoques/GS_otimizado.py:109-130 | the take child (value and weight plus item i, bit i set to 1) is pruned when its weight exceeds W; at the last level it is counted feasible and offered; otherwise it is queued with its computed bound exactly when that bound beats the incumbent, and pruned otherwise |
| Search.LeaveBranch | GestaoDeEstoques/GS_otimizado.py:133-146 | the leave child keeps the frontier invariant and a feasible incumbent; the incumbent changes only when the child is at the last level and only to a strictly larger value; one child is accounted for |
| Search.LeaveBranchRules | GestaoDeEstoques/GS_otimizado.py:133-146 | at the last level the parent's own value and vector are offered and counted feasible; otherwise the leave child (bit i set to 0) is queued with its computed bound exactly when that bound beats the incumbent, and pruned otherwise |
| Search.Expand | GestaoDeEstoques/GS_otimizado.py:108-146 | expanding a node is the take branch followed by the leave branch; both children are accounted for; the frontier invariant and a feasible incumbent are kept; the incumbent changes only at the last level and only to a strictly larger value; the termination measure drops below what the node's subtree contributed |
| Search.RemoveEntry | GestaoDeEstoques/GS_otimizado.py:97 | removing any one entry keeps the rest of the frontier well formed, ordered by insertion number, and lowers the termination measure by exactly that entry's subtree size |
| Search.PushEntry | GestaoDeEstoques/GS_otimizado.py:124-125 | appending an entry carrying the next insertion number keeps the queue well formed |
| Search.QueueKeepsInvariant | GestaoDeEstoques/GS_otimizado.py:124-125 | queuing a placeable non-leaf child whose bound beats a feasible incumbent, with the next insertion number, keeps the search invariant, including that the queued bound is at least the node's value (a child that fills W exactly has bound 0 and is never queued) |
| Search.Record | GestaoDeEstoques/GS_otimizado.py:149-151 | counting an expansion at level i adds one to the expansion count and to level i's count, leaves the other levels unchanged, and keeps max_depth the deepest level that has an expansion |
| Search.Step | GestaoDeEstoques/GS_otimizado.py:97-151 | one loop pass pops a minimum-key node, whose bound is at least its value; if its bound does not beat the incumbent it is counted as pruned and nothing else changes; otherwise it is not at the last level (the skip branch cannot be reached), it is expanded and the expansion is recorded at its child level; the invariants, strict incumbent improvement and counter accounting are kept; the termination measure strictly decreases |
| Search.BestFirst | GestaoDeEstoques/GS_otimizado.py:90-151 | the loop terminates with the invariants kept; it never expands more than the node budget; without budgets it empties the queue; a node budget of 0 or a failing first time check (deadline = Some(0)), or a root bound that does not beat the incumbent, means no expansion and the incumbent unchanged; a root bound that beats the incumbent, with max_nodes ≠ 0 and the first time check passing (deadline ≠ Some(0)), means at least one expansion; pruned + feasible + queue size = expanded + 2 |
| Search.Solve | GestaoDeEstoques/GS_otimizado.py:73-163 | the best solution is feasible, with its value equal to its selected sum, and is never below the greedy value. The node budget is respected. A node budget of 0 or a failing first time check (deadline = Some(0)), or a root bound not above the greedy value, returns the greedy result with no expansions; a root bound above the greedy value, with max_nodes ≠ 0 and the first time check passing (deadline ≠ Some(0)), expands at least one node. n = 0 returns (0, [], 0 expansions). The per-level counts sum to the expansions and max_depth is 0 or below n. Without budgets, pruned + feasible = expanded + 2 |
| Search.SolveKnapsackWithBnb | GestaoDeEstoques/GS_otimizado.py:167-169 | the wrapper returns a ratio-sorted permutation of the items and a feasible solution over them, of length n, no worse than the greedy one; it passes on the solver's metrics guarantees: the node budget is respected, a node budget of 0 or a failing first time check (deadline = Some(0)) returns the greedy result with no expansions, no items give (0, [], 0 expansions), the per-level counts sum to the expansions, at least one feasible solution is counted, and without budgets pruned + feasible = expanded + 2 |
| Search.ExactFillPruned | GestaoDeEstoques/GS_otimizado.py:45-46 | on items (7,6), (5,5), (5,5), (0.1,100) with W = 10: the greedy value is 7 and the two (5,5) items form a feasible solution of value 10, yet once the incumbent is at least 7 the take child that fills W exactly gets bound 0 and is pruned, and the leave child's bound is below 7 |

## Left out

- `GestaoDeEstoques/app.py` (Streamlit pages and charts) and `GestaoDeEstoques/dataset.py` (CSV loading, sampling, scaling) are I/O and presentation and are not part of this model.
- Wall-clock time: `time.time()` is not modelled. The time limit becomes the parameter `deadline`: the number of the first loop check at which the elapsed time has reached the limit; the loop leaves at that check, so later checks are never seen. A time limit of 0 corresponds to `deadline == Some(0)` only when the clock is not set back between the start and the first check. A positive time limit can also give `deadline == Some(0)`: the start time is taken before the greedy pass and the root bound, so a limit shorter than those two steps already fails the first check. The reported total time is not modelled.
- Floating point: values, weights, ratios and bounds are exact reals, so rounding in the sums and in the division by weight+1e-9 is not modelled.
- Preprocess.SortByRatio: pandas' sort is not guaranteed to be stable. The model fixes one order for items of equal ratio, and only "a ratio-descending permutation" is stated.
- Search.Solve: optimality and validity of the bound are not claimed, because the source does not have them. The bound returns 0 for a node whose weight equals W exactly, so a non-leaf take child that exactly fills the capacity is pruned without being recorded. With items (value, weight) = (7,6), (5,5), (5,5), (0.1,100) in ratio order and W = 10, the search returns 7, while choosing the two (5,5) items gives 10; Search.ExactFillPruned proves the step where the exactly filling take child is pruned.
- Search.Solve: models one `solve()` call on a freshly constructed solver. A repeated call on the same solver resets only the incumbent and the feasible count; it accumulates the other counters and the insertion counter, and the node budget is compared with the accumulated expansions. Every caller builds a fresh solver.
- Search.Solve: its contract does not pin the search itself; a body that returned the greedy result with made-up metrics could meet it. What ties the loop to the source is Search.Step's equations (prune, or take then leave, recorded at the child level) and the body of Search.BestFirst, which only calls Step between the time and budget checks.
- Search.Solve: `max_nodes` is a natural number. The source converts any integer, and a negative budget behaves like 0.
- SolveKnapsackWithBnb: the values, weights and capacity must be non-negative. The source does not check this, but without it neither the greedy nor the bound is meaningful.
- The `nodes_per_level` dictionary is a sequence of length n with 0 for absent keys. `Item.id` is carried but never read by the solver.
- The solution vector is indexed in ratio order, as in the source. The app indexes its unsorted frame with this ratio-order vector (`GestaoDeEstoques/app.py:113-115`); that is outside this model.
- The frontier invariant keeps, for each queued node, that its bound is at least its value and at most its value plus the values of the undecided items; it does not restate that the bound equals a recomputation, which is established where nodes are created (Search.WithBound, Search.TakeBranchRules, Search.LeaveBranchRules).

=== FILE: bound.dfy ===
/** The fractional-relaxation bound of a search node (`_calculate_bound`). */
module Bound {
  import opened Sums
  import opened Knapsack

  /** Where the greedy fill stops: the first index that did not fit (or N),
      and the weight and value accumulated up to it. */
  datatype Fill = Fill(next: int, weight: real, value: real)

  /** The bound's inner loop: starting at index j with the node's weight and
      value, take whole items while the next one still fits. */
  function GreedyFill(inst: Instance, j: int, weight: real, value: real): (r: Fill)
    requires inst.Valid()
    requires 0 <= j <= inst.N()
    requires weight <= inst.W
    ensures j <= r.next <= inst.N()
    ensures r.weight == weight + RangeSum(inst.weights, j, r.next)
    ensures r.value == value + RangeSum(inst.values, j, r.next)
    ensures r.weight <= inst.W
    ensures r.next < inst.N() ==> r.weight + inst.weights[r.next] > inst.W
    decreases inst.N() - j
  {
    if j < inst.N() && weight + inst.weights[j] <= inst.W then
      GreedyFill(inst, j + 1, weight + inst.weights[j], value + inst.values[j])
    else
      Fill(j, weight, value)
  }

  /** The share of an item (value v, weight w) that fills the remaining
      capacity, with the weight enlarged by EPS. */
  function FractionalTerm(v: real, w: real, remaining: real): real
    requires w >= 0.0
  {
    v * (remaining / (w + EPS))
  }

  /** The bound of a node: 0 when the node is at or over capacity; otherwise
      its value plus the whole items that fit in scan order plus a
      fractional share of the first item that does not. Only the node's
      level, value and weight are read. */
  function CalculateBound(inst: Instance, u: Node): (r: real)
    requires inst.Valid()
    requires -1 <= u.level < inst.N()
    ensures u.weight >= inst.W ==> r == 0.0
    ensures u.weight < inst.W ==> u.value <= r <= u.value + RangeSum(inst.values, u.level + 1, inst.N())
  {
    if u.weight >= inst.W then 0.0
    else
      var f := GreedyFill(inst, u.level + 1, u.weight, u.value);
      BoundCap(inst, u.level + 1, u.weight, u.value, f);
      if f.next < inst.N() then
        f.value + FractionalTerm(inst.values[f.next], inst.weights[f.next], inst.W - f.weight)
      else
        f.value
  }

  /** For a node with a non-negative value, at or over capacity included,
      the bound never exceeds the value plus every undecided item's value. */
  lemma BoundBelowRemaining(inst: Instance, u: Node)
    requires inst.Valid()
    requires -1 <= u.level < inst.N() && u.value >= 0.0
    ensures CalculateBound(inst, u) <= u.value + RangeSum(inst.values, u.level + 1, inst.N())
  {
    RangeSumNonNegative(inst.values, u.level + 1, inst.N());
  }

  /** The bound reads only the node's level, value and weight. */
  lemma BoundIgnoresStoredBound(inst: Instance, u: Node, b: real)
    requires inst.Valid()
    requires -1 <= u.level < inst.N()
    ensures CalculateBound(inst, u.(bound := b)) == CalculateBound(inst, u)
  {
  }

  /** A share between 0 and 1 of a non-negative value lies between 0 and
      that value. */
  lemma FractionBetween(v: real, w: real, remaining: real)
    requires v >= 0.0 && w >= 0.0
    requires 0.0 <= remaining <= w
    ensures 0.0 <= FractionalTerm(v, w, remaining) <= v
  {
    var q := remaining / (w + EPS);
    assert q * (w + EPS) == remaining;
    assert 0.0 <= q <= 1.0;
    assert v * q <= v * 1.0;
  }

  /** The fill plus its fractional term stays between the node value and
      the node value plus every remaining item's value. */
  lemma BoundCap(inst: Instance, j: int, weight: real, value: real, f: Fill)
    requires inst.Valid()
    requires 0 <= j <= inst.N() && weight < inst.W
    requires f == GreedyFill(inst, j, weight, value)
    ensures value <= (if f.next < inst.N() then f.value + FractionalTerm(inst.values[f.next], inst.weights[f.next], inst.W - f.weight) else f.value)
    ensures (if f.next < inst.N() then f.value + FractionalTerm(inst.values[f.next], inst.weights[f.next], inst.W - f.weight) else f.value)
            <= value + RangeSum(inst.values, j, inst.N())
  {
    RangeSumNonNegative(inst.values, j, f.next);
    RangeSumMonotone(inst.values, j, f.next, inst.N());
    if f.next < inst.N() {
      FractionBetween(inst.values[f.next], inst.weights[f.next], inst.W - f.weight);
      RangeSumSnoc(inst.values, j, f.next);
      RangeSumMonotone(inst.values, j, f.next + 1, inst.N());
    }
  }

  /** An independent description of where the fill stops: on top of
      `weight`, items j..k-1 all fit and item k (when there is one) would
      overflow the capacity. */
  predicate IsCritical(inst: Instance, j: int, weight: real, k: int)
    requires inst.Valid()
    requires 0 <= j <= k <= inst.N()
  {
    && weight + RangeSum(inst.weights, j, k) <= inst.W
    && (k < inst.N() ==> weight + RangeSum(inst.weights, j, k + 1) > inst.W)
  }

  /** The textbook fractional bound written around a critical index k. */
  function CriticalBound(inst: Instance, u: Node, k: int): real
    requires inst.Valid()
    requires -1 <= u.level && u.level + 1 <= k <= inst.N()
  {
    var taken := RangeSum(inst.values, u.level + 1, k);
    var used := u.weight + RangeSum(inst.weights, u.level + 1, k);
    if k < inst.N() then u.value + taken + FractionalTerm(inst.values[k], inst.weights[k], inst.W - used)
    else u.value + taken
  }

  /** Below capacity the bound equals the critical-index formula, and the
      critical index is unique, so any index meeting the description gives
      the same bound. */
  lemma BoundAtCriticalIndex(inst: Instance, u: Node, k: int)
    requires inst.Valid()
    requires -1 <= u.level < inst.N() && u.weight < inst.W
    requires u.level + 1 <= k <= inst.N()
    requires IsCritical(inst, u.level + 1, u.weight, k)
    ensures k == GreedyFill(inst, u.level + 1, u.weight, u.value).next
    ensures CalculateBound(inst, u) == CriticalBound(inst, u, k)
  {
    var j := u.level + 1;
    var f := GreedyFill(inst, j, u.weight, u.value);
    if k < f.next {
      RangeSumMonotone(inst.weights, j, k + 1, f.next);
      assert false;
    }
    if f.next < k {
      RangeSumSnoc(inst.weights, j, f.next);
      RangeSumMonotone(inst.weights, j, f.next + 1, k);
      assert false;
    }
  }

  /** The fill always stops at a critical index. */
  lemma FillStopsAtCriticalIndex(inst: Instance, j: int, weight: real, value: real)
    requires inst.Valid()
    requires 0 <= j <= inst.N() && weight <= inst.W
    ensures IsCritical(inst, j, weight, GreedyFill(inst, j, weight, value).next)
  {
    var f := GreedyFill(inst, j, weight, value);
    if f.next < inst.N() {
      RangeSumSnoc(inst.weights, j, f.next);
    }
  }

  /** The EPS in the denominator makes the fractional term no larger than
      the exact linear-relaxation share value * remaining / weight. */
  lemma EpsilonShrinksFraction(v: real, w: real, remaining: real)
    requires v >= 0.0 && w > 0.0 && remaining >= 0.0
    ensures FractionalTerm(v, w, remaining) <= v * (remaining / w)
  {
    var q := remaining / (w + EPS);
    var p := remaining / w;
    assert q * (w + EPS) == remaining;
    assert p * w == remaining;
    assert q <= p;
    assert v * q <= v * p;
  }
}

=== FILE: greedy.dfy ===
/** The greedy primal heuristic (`_greedy_primal`) that seeds the incumbent. */
module Greedy {
  import opened Sums
  import opened Knapsack

  /** The scan's state after deciding the first k items. */
  datatype Scan = Scan(value: real, weight: real, x: seq<Bit>)

  /** Decide items 0..k-1 in scan order, taking each one that still fits. */
  function GreedyPrefix(inst: Instance, k: nat): (s: Scan)
    requires inst.Valid()
    requires k <= inst.N()
    ensures |s.x| == k
    ensures s.weight == SelectedSum(inst.weights, s.x) <= inst.W
    ensures s.value == SelectedSum(inst.values, s.x)
  {
    if k == 0 then Scan(0.0, 0.0, [])
    else
      var s := GreedyPrefix(inst, k - 1);
      var w := inst.weights[k - 1];
      var v := inst.values[k - 1];
      SelectedSumSnoc(inst.weights, s.x, 1);
      SelectedSumSnoc(inst.weights, s.x, 0);
      SelectedSumSnoc(inst.values, s.x, 1);
      SelectedSumSnoc(inst.values, s.x, 0);
      if s.weight + w <= inst.W then
        Scan(s.value + v, s.weight + w, s.x + [1])
      else
        Scan(s.value, s.weight, s.x + [0])
  }

  /** The greedy solution over all items: a feasible incumbent. */
  function GreedyPrimal(inst: Instance): (r: Incumbent)
    requires inst.Valid()
    ensures Feasible(inst, r)
  {
    var s := GreedyPrefix(inst, inst.N());
    Incumbent(s.value, s.x)
  }

  /** Later decisions never rewrite earlier ones. */
  lemma {:induction false} GreedyPrefixExtends(inst: Instance, i: nat, k: nat)
    requires inst.Valid()
    requires i <= k <= inst.N()
    ensures GreedyPrefix(inst, k).x[..i] == GreedyPrefix(inst, i).x
    decreases k - i
  {
    if i < k {
      GreedyPrefixExtends(inst, i, k - 1);
      assert GreedyPrefix(inst, k).x[..k - 1] == GreedyPrefix(inst, k - 1).x;
    } else {
      assert GreedyPrefix(inst, k).x[..i] == GreedyPrefix(inst, k).x;
    }
  }

  /** Item i is taken exactly when it fits on top of the items taken
      before it. */
  lemma GreedyChoice(inst: Instance, i: int)
    requires inst.Valid()
    requires 0 <= i < inst.N()
    ensures GreedyPrimal(inst).x[i] == 1
            <==> SelectedSum(inst.weights, GreedyPrimal(inst).x[..i]) + inst.weights[i] <= inst.W
  {
    var x := GreedyPrimal(inst).x;
    GreedyPrefixExtends(inst, i, inst.N());
    GreedyPrefixExtends(inst, i + 1, inst.N());
    assert x[..i + 1][..i] == x[..i];
    assert x[i] == GreedyPrefix(inst, i + 1).x[i];
  }

  /** The greedy solution is maximal: no item it left out could be added
      without exceeding the capacity. */
  lemma GreedyIsMaximal(inst: Instance, i: int)
    requires inst.Valid()
    requires 0 <= i < inst.N()
    requires GreedyPrimal(inst).x[i] == 0
    ensures SelectedSum(inst.weights, GreedyPrimal(inst).x) + inst.weights[i] > inst.W
  {
    var x := GreedyPrimal(inst).x;
    GreedyChoice(inst, i);
    SelectedSumPrefixBelow(inst.weights, x, i);
  }
}

=== FILE: knapsack.dfy ===
/** The data model of the knapsack solver: items, the prepared instance
    (item columns in ratio order plus the capacity), search nodes and the
    incumbent solution. */
module Knapsack {
  import opened Sums

  /** The 1e-9 added to a weight before dividing by it, both in the ratio
      used for sorting and in the bound's fractional term. */
  const EPS: real := 0.000000001

  /** An optional budget: None means unlimited. */
  datatype Option<T> = None | Some(value: T)

  /** One product: its estimated profit ("value") and its volume ("weight"). */
  datatype Item = Item(id: int, value: real, weight: real)

  predicate ValidItems(items: seq<Item>) {
    forall k :: 0 <= k < |items| ==> items[k].value >= 0.0 && items[k].weight >= 0.0
  }

  /** Profit per unit of volume, with EPS keeping the denominator positive. */
  function Ratio(it: Item): real
    requires it.weight >= 0.0
  {
    it.value / (it.weight + EPS)
  }

  /** Descending by ratio, the order in which bound and greedy scan items. */
  predicate SortedByRatio(items: seq<Item>)
    requires ValidItems(items)
  {
    forall i, j :: 0 <= i < j < |items| ==> Ratio(items[i]) >= Ratio(items[j])
  }

  /** The solver's view of a problem: the items in scan order, their
      value and weight columns, and the capacity W. */
  datatype Instance = Instance(items: seq<Item>, values: seq<real>, weights: seq<real>, W: real) {

    function N(): nat {
      |values|
    }

    /** The columns are the items' values and weights, all non-negative,
        and the capacity is non-negative. */
    predicate Valid() {
      && |items| == |values| == |weights|
      && (forall k :: 0 <= k < |items| ==> values[k] == items[k].value && weights[k] == items[k].weight)
      && NonNegative(values)
      && NonNegative(weights)
      && W >= 0.0
    }
  }

  /** A search node: the last decided item (`level`, -1 at the root), the
      accumulated value and weight, the node's bound and its decisions. */
  datatype Node = Node(level: int, value: real, weight: real, bound: real, x: seq<Bit>)

  /** A node whose accumulated value and weight are the sums over its
      decision vector and whose undecided positions are still 0. */
  predicate Consistent(inst: Instance, u: Node) {
    && |inst.weights| == inst.N()
    && |u.x| == inst.N()
    && -1 <= u.level < inst.N()
    && u.value == SelectedSum(inst.values, u.x)
    && u.weight == SelectedSum(inst.weights, u.x)
    && (forall k :: u.level < k < inst.N() ==> u.x[k] == 0)
  }

  /** The best solution found so far: its value and decision vector. */
  datatype Incumbent = Incumbent(value: real, x: seq<Bit>)

  /** A complete decision vector that fits the capacity, paired with its
      true value. */
  predicate Feasible(inst: Instance, inc: Incumbent) {
    && |inst.weights| == inst.N()
    && |inc.x| == inst.N()
    && SelectedSum(inst.weights, inc.x) <= inst.W
    && inc.value == SelectedSum(inst.values, inc.x)
  }
}

=== FILE: preprocess.dfy ===
/** Construction of the solver (`BranchAndBoundSolver.__init__`): the items
    are reordered by value/weight ratio, descending, and the capacity is
    recorded. */
module Preprocess {
  import opened Knapsack

  /** Insert `it` into a ratio-sorted sequence, ahead of every item whose
      ratio is not larger. */
  function InsertByRatio(it: Item, s: seq<Item>): (r: seq<Item>)
    requires it.value >= 0.0 && it.weight >= 0.0
    requires ValidItems(s) && SortedByRatio(s)
    ensures multiset(r) == multiset(s) + multiset{it}
    ensures |r| == |s| + 1
    ensures r[0] == it || (|s| > 0 && r[0] == s[0])
    ensures ValidItems(r) && SortedByRatio(r)
  {
    if |s| == 0 then [it]
    else if Ratio(it) >= Ratio(s[0]) then
      SortedCons(it, s);
      [it] + s
    else
      var rest := InsertByRatio(it, s[1..]);
      assert s == [s[0]] + s[1..];
      SortedCons(s[0], rest);
      [s[0]] + rest
  }

  /** Putting an item in front of a sorted sequence whose head has a ratio
      no larger keeps it sorted. */
  lemma SortedCons(h: Item, t: seq<Item>)
    requires h.value >= 0.0 && h.weight >= 0.0
    requires ValidItems(t) && SortedByRatio(t)
    requires |t| > 0 ==> Ratio(h) >= Ratio(t[0])
    ensures ValidItems([h] + t) && SortedByRatio([h] + t)
  {
    var r := [h] + t;
    assert forall k :: 0 < k < |r| ==> r[k] == t[k - 1];
    forall i, j | 0 <= i < j < |r|
      ensures Ratio(r[i]) >= Ratio(r[j])
    {
      if i == 0 {
        assert Ratio(t[0]) >= Ratio(t[j - 1]);
      }
    }
  }

  /** Sort items by ratio, descending (insertion sort). */
  function SortByRatio(items: seq<Item>): (r: seq<Item>)
    requires ValidItems(items)
    ensures multiset(r) == multiset(items)
    ensures ValidItems(r) && SortedByRatio(r)
  {
    if |items| == 0 then []
    else
      assert items == [items[0]] + items[1..];
      assert items[0].value >= 0.0 && items[0].weight >= 0.0;
      InsertByRatio(items[0], SortByRatio(items[1..]))
  }

  /** The solver's instance: the same items in descending ratio order,
      their value and weight columns, and the given capacity. */
  function Prepare(items: seq<Item>, capacity: real): (inst: Instance)
    requires ValidItems(items)
    ensures multiset(inst.items) == multiset(items)
    ensures ValidItems(inst.items) && SortedByRatio(inst.items)
    ensures inst.W == capacity
    ensures capacity >= 0.0 ==> inst.Valid()
  {
    var sorted := SortByRatio(items);
    Instance(sorted,
             seq(|sorted|, k requires 0 <= k < |sorted| => sorted[k].value),
             seq(|sorted|, k requires 0 <= k < |sorted| => sorted[k].weight),
             capacity)
  }
}

=== FILE: search.dfy ===
/** The best-first Branch & Bound loop (`solve`) and the wrapper
    `solve_knapsack_with_bnb`. */
module Search {
  import opened Sums
  import opened Knapsack
  import opened Bound
  import opened Greedy
  import opened Preprocess

  /** A priority-queue entry: the key (-bound, insertion number) and the node. */
  datatype Entry = Entry(negBound: real, seqNo: nat, node: Node)

  /** The queue's order: lexicographic on (negBound, seqNo), so the largest
      bound comes first and equal bounds leave in insertion order. */
  predicate KeyLe(a: Entry, b: Entry) {
    a.negBound < b.negBound || (a.negBound == b.negBound && a.seqNo <= b.seqNo)
  }

  /** The counters reported next to the answer. `nodesPerLevel[l]` is the
      number of expansions at level l (0 where the dictionary has no key). */
  datatype Metrics = Metrics(expanded: nat, pruned: nat, feasible: nat, maxDepth: int, nodesPerLevel: seq<nat>)

  /** What `solve` returns: the best value, its decision vector (in ratio
      order) and the metrics. */
  datatype Outcome = Outcome(bestValue: real, bestX: seq<Bit>, metrics: Metrics)

  /** Index of the entry the priority queue hands out next: one whose key
      is not above any other key. */
  method PopIndex(f: seq<Entry>) returns (k: nat)
    requires |f| > 0
    ensures k < |f|
    ensures forall j :: 0 <= j < |f| ==> KeyLe(f[k], f[j])
  {
    k := 0;
    var j := 1;
    while j < |f|
      invariant 1 <= j <= |f| && k < j
      invariant forall m :: 0 <= m < j ==> KeyLe(f[k], f[m])
    {
      if !KeyLe(f[k], f[j]) {
        k := j;
      }
      j := j + 1;
    }
  }

  /** With distinct insertion numbers two entries are never tied on the
      key, so the entry the queue hands out is determined. */
  lemma PopIsDetermined(f: seq<Entry>, k1: int, k2: int)
    requires forall a, b :: 0 <= a < b < |f| ==> f[a].seqNo < f[b].seqNo
    requires 0 <= k1 < |f| && 0 <= k2 < |f|
    requires forall j :: 0 <= j < |f| ==> KeyLe(f[k1], f[j])
    requires forall j :: 0 <= j < |f| ==> KeyLe(f[k2], f[j])
    ensures k1 == k2
  {
    assert KeyLe(f[k1], f[k2]) && KeyLe(f[k2], f[k1]);
  }

  /** The child that decides item level+1 (taken or not), before its bound
      is computed: the parent's vector with that one position set. */
  function Extend(inst: Instance, u: Node, take: bool): (c: Node)
    requires Consistent(inst, u) && u.level + 1 < inst.N()
    ensures Consistent(inst, c)
    ensures c.level == u.level + 1
    ensures c.x == u.x[u.level + 1 := if take then 1 else 0]
    ensures c.bound == 0.0
    ensures take ==> c.value == u.value + inst.values[u.level + 1] && c.weight == u.weight + inst.weights[u.level + 1]
    ensures !take ==> c.value == u.value && c.weight == u.weight && c.x == u.x
  {
    var i := u.level + 1;
    if take then
      SelectedSumSetOne(inst.values, u.x, i);
      SelectedSumSetOne(inst.weights, u.x, i);
      Node(i, u.value + inst.values[i], u.weight + inst.weights[i], 0.0, u.x[i := 1])
    else
      assert u.x[i := 0] == u.x;
      Node(i, u.value, u.weight, 0.0, u.x[i := 0])
  }

  /** The child with its bound filled in; the bound is computed from the
      child's level, value and weight and so matches a recomputation. */
  function WithBound(inst: Instance, c: Node): (r: Node)
    requires inst.Valid() && Consistent(inst, c)
    ensures Consistent(inst, r)
    ensures r.level == c.level && r.value == c.value && r.weight == c.weight && r.x == c.x
    ensures r.bound == CalculateBound(inst, c) == CalculateBound(inst, r)
  {
    var b := CalculateBound(inst, c);
    BoundIgnoresStoredBound(inst, c, b);
    c.(bound := b)
  }

  /** Offer a complete solution to the incumbent: it replaces the incumbent,
      value and vector together, only when its value is strictly larger. */
  function Offer(inc: Incumbent, v: real, x: seq<Bit>): (r: Incumbent)
    ensures r == inc || r == Incumbent(v, x)
    ensures r.value >= inc.value && r.value >= v
    ensures r != inc <==> v > inc.value
  {
    if v > inc.value then Incumbent(v, x) else inc
  }

  /** Number of nodes in a full binary subtree with d more levels below. */
  function Tree(d: int): (t: nat)
    ensures t >= 1
  {
    if d <= 0 then 1 else 2 * Tree(d - 1) + 1
  }

  /** Termination measure: the size of the subtrees still hanging below the
      frontier. */
  function Pending(f: seq<Entry>, n: int): nat {
    if |f| == 0 then 0 else Pending(f[..|f| - 1], n) + Tree(n - 1 - f[|f| - 1].node.level)
  }

  lemma {:induction false} PendingConcat(a: seq<Entry>, b: seq<Entry>, n: int)
    ensures Pending(a + b, n) == Pending(a, n) + Pending(b, n)
  {
    if |b| > 0 {
      var m := |b| - 1;
      assert (a + b)[..|a + b| - 1] == a + b[..m];
      PendingConcat(a, b[..m], n);
    } else {
      assert a + b == a;
    }
  }

  lemma PendingSingle(e: Entry, n: int)
    ensures Pending([e], n) == Tree(n - 1 - e.node.level)
  {
    assert [e][..0] == [];
  }

  lemma {:induction false} PendingRemove(f: seq<Entry>, k: int, n: int)
    requires 0 <= k < |f|
    ensures Pending(f[..k] + f[k + 1..], n) + Tree(n - 1 - f[k].node.level) == Pending(f, n)
  {
    var m := |f| - 1;
    var g := f[..m];
    if k == m {
      assert f[..k] + f[k + 1..] == g;
    } else {
      PendingRemove(g, k, n);
      assert f[..k] + f[k + 1..] == (g[..k] + g[k + 1..]) + [f[m]];
      assert (g[..k] + g[k + 1..] + [f[m]])[..|g| - 1] == g[..k] + g[k + 1..];
    }
  }

  /** Shape of a node waiting on the frontier: consistent sums, room left
      to branch, within capacity, a bound between its value and its value
      plus the undecided items' values, queued under the key of its own
      bound. */
  predicate FrontierEntry(inst: Instance, e: Entry, next: nat)
    requires inst.Valid()
  {
    && Consistent(inst, e.node)
    && (e.node.level == -1 || e.node.level <= inst.N() - 2)
    && e.node.weight <= inst.W
    && e.node.value <= e.node.bound <= e.node.value + RangeSum(inst.values, e.node.level + 1, inst.N())
    && e.negBound == -e.node.bound
    && e.seqNo < next
  }

  predicate WellFormedFrontier(inst: Instance, f: seq<Entry>, next: nat)
    requires inst.Valid()
  {
    && (forall k :: 0 <= k < |f| ==> FrontierEntry(inst, f[k], next))
    && (forall a, b :: 0 <= a < b < |f| ==> f[a].seqNo < f[b].seqNo)
  }

  /** The solver's mutable state apart from the per-expansion counters:
      the incumbent, the queue, the next insertion number and the pruned
      and feasible counters. */
  datatype SearchState = SearchState(inc: Incumbent, entries: seq<Entry>, counter: nat, pruned: nat, feasible: nat)

  /** The incumbent is feasible and the queue is well formed. */
  predicate SearchInvariant(inst: Instance, s: SearchState)
    requires inst.Valid()
  {
    Feasible(inst, s.inc) && WellFormedFrontier(inst, s.entries, s.counter)
  }

  /** A child of an expanded node, within capacity and carrying its bound. */
  predicate PlaceableChild(inst: Instance, c: Node)
    requires inst.Valid()
  {
    && Consistent(inst, c)
    && 0 <= c.level
    && c.weight <= inst.W
    && c.bound == CalculateBound(inst, c)
  }

  /** Queuing an entry under the next insertion number keeps the queue
      well formed. */
  lemma PushEntry(inst: Instance, f: seq<Entry>, next: nat, e: Entry)
    requires inst.Valid() && WellFormedFrontier(inst, f, next)
    requires FrontierEntry(inst, e, next + 1) && e.seqNo == next
    ensures WellFormedFrontier(inst, f + [e], next + 1)
  {
    var g := f + [e];
    forall a | 0 <= a < |g|
      ensures FrontierEntry(inst, g[a], next + 1)
    {
      if a < |f| {
        assert g[a] == f[a];
      }
    }
    forall a, b | 0 <= a < b < |g|
      ensures g[a].seqNo < g[b].seqNo
    {
      assert g[a] == f[a];
    }
  }

  /** Queuing a child that is placeable, has items left to decide and whose
      bound beats the incumbent keeps the search invariant. A child that
      fills W exactly has bound 0, which never beats a feasible incumbent,
      so every queued bound is at least the node's value. */
  lemma QueueKeepsInvariant(inst: Instance, s: SearchState, c: Node)
    requires inst.Valid()
    ensures && SearchInvariant(inst, s) && PlaceableChild(inst, c) && c.level < inst.N() - 1
            && c.bound > s.inc.value
            ==> SearchInvariant(inst, s.(entries := s.entries + [Entry(-c.bound, s.counter, c)], counter := s.counter + 1))
  {
    if SearchInvariant(inst, s) && PlaceableChild(inst, c) && c.level < inst.N() - 1 && c.bound > s.inc.value {
      SelectedSumNonNegative(inst.values, c.x);
      SelectedSumNonNegative(inst.values, s.inc.x);
      BoundBelowRemaining(inst, c);
      PushEntry(inst, s.entries, s.counter, Entry(-c.bound, s.counter, c));
    }
  }

  /** Handling of a child that fits: at the last level it is a complete
      solution, counted and offered to the incumbent as (leafValue, leafX);
      otherwise it is queued when its bound beats the incumbent and counted
      as pruned when it does not. */
  function Place(inst: Instance, s: SearchState, c: Node, leafValue: real, leafX: seq<Bit>): (r: SearchState)
    requires inst.Valid()
    ensures SearchInvariant(inst, s) && PlaceableChild(inst, c)
            && (c.level == inst.N() - 1 ==> Feasible(inst, Incumbent(leafValue, leafX)))
            ==> SearchInvariant(inst, r)
    ensures r.inc.value >= s.inc.value
    ensures r.inc != s.inc ==> c.level == inst.N() - 1 && r.inc.value > s.inc.value
    ensures r.feasible >= s.feasible
    ensures r.pruned + r.feasible + |r.entries| == s.pruned + s.feasible + |s.entries| + 1
    ensures Pending(r.entries, inst.N()) <= Pending(s.entries, inst.N()) + Tree(inst.N() - 1 - c.level)
  {
    if c.level == inst.N() - 1 then
      s.(feasible := s.feasible + 1, inc := Offer(s.inc, leafValue, leafX))
    else if c.bound > s.inc.value then
      var e := Entry(-c.bound, s.counter, c);
      QueueKeepsInvariant(inst, s, c);
      PendingConcat(s.entries, [e], inst.N());
      PendingSingle(e, inst.N());
      s.(entries := s.entries + [e], counter := s.counter + 1)
    else
      s.(pruned := s.pruned + 1)
  }

  /** Placing a child: at the last level it is counted feasible and
      offered to the incumbent; above it, it is queued under the next
      insertion number exactly when its bound beats the incumbent, and
      counted as pruned otherwise. */
  lemma PlaceRules(inst: Instance, s: SearchState, c: Node, leafValue: real, leafX: seq<Bit>)
    requires inst.Valid()
    ensures c.level == inst.N() - 1 ==>
              Place(inst, s, c, leafValue, leafX) == s.(feasible := s.feasible + 1, inc := Offer(s.inc, leafValue, leafX))
    ensures c.level < inst.N() - 1 && c.bound > s.inc.value ==>
              Place(inst, s, c, leafValue, leafX) == s.(entries := s.entries + [Entry(-c.bound, s.counter, c)], counter := s.counter + 1)
    ensures c.level < inst.N() - 1 && c.bound <= s.inc.value ==>
              Place(inst, s, c, leafValue, leafX) == s.(pruned := s.pruned + 1)
  {
  }

  /** The child that takes item i = level+1: placed when it fits the
      capacity, counted as pruned when it does not. */
  function TakeBranch(inst: Instance, s: SearchState, u: Node): (r: SearchState)
    requires inst.Valid() && Consistent(inst, u) && u.level + 1 < inst.N()
    ensures SearchInvariant(inst, s) ==> SearchInvariant(inst, r)
    ensures r.inc.value >= s.inc.value
    ensures r.inc != s.inc ==> u.level + 1 == inst.N() - 1 && r.inc.value > s.inc.value
    ensures r.feasible >= s.feasible
    ensures r.pruned + r.feasible + |r.entries| == s.pruned + s.feasible + |s.entries| + 1
    ensures Pending(r.entries, inst.N()) <= Pending(s.entries, inst.N()) + Tree(inst.N() - 2 - u.level)
  {
    var cand := Extend(inst, u, true);
    if cand.weight <= inst.W then
      var nodeIn := WithBound(inst, cand);
      assert PlaceableChild(inst, nodeIn) && nodeIn.level == u.level + 1;
      assert Feasible(inst, Incumbent(nodeIn.value, nodeIn.x));
      Place(inst, s, nodeIn, nodeIn.value, nodeIn.x)
    else
      s.(pruned := s.pruned + 1)
  }

  /** The child that leaves item i = level+1 out; at the last level the
      solution offered is the parent's own value and vector. */
  function LeaveBranch(inst: Instance, s: SearchState, u: Node): (r: SearchState)
    requires inst.Valid() && Consistent(inst, u) && u.weight <= inst.W && u.level + 1 < inst.N()
    ensures SearchInvariant(inst, s) ==> SearchInvariant(inst, r)
    ensures r.inc.value >= s.inc.value
    ensures r.inc != s.inc ==> u.level + 1 == inst.N() - 1 && r.inc.value > s.inc.value
    ensures r.feasible >= s.feasible
    ensures r.pruned + r.feasible + |r.entries| == s.pruned + s.feasible + |s.entries| + 1
    ensures Pending(r.entries, inst.N()) <= Pending(s.entries, inst.N()) + Tree(inst.N() - 2 - u.level)
  {
    var nodeEx := WithBound(inst, Extend(inst, u, false));
    assert PlaceableChild(inst, nodeEx) && nodeEx.level == u.level + 1;
    assert Feasible(inst, Incumbent(u.value, u.x));
    Place(inst, s, nodeEx, u.value, u.x)
  }

  /** The take branch's decisions as the source states them: the child
      (level i, value v+v_i, weight w+w_i, vector with x[i] = 1) is pruned
      when it exceeds W; otherwise at the last level it is counted feasible
      and offered, and above it is queued when its bound beats the
      incumbent and pruned when it does not. */
  lemma TakeBranchRules(inst: Instance, s: SearchState, u: Node)
    requires inst.Valid() && Consistent(inst, u) && u.level + 1 < inst.N()
    ensures var i := u.level + 1;
            var wIn := u.weight + inst.weights[i];
            var vIn := u.value + inst.values[i];
            var xIn := u.x[i := 1];
            var b := CalculateBound(inst, Node(i, vIn, wIn, 0.0, xIn));
            TakeBranch(inst, s, u)
            == if wIn > inst.W then s.(pruned := s.pruned + 1)
               else if i == inst.N() - 1 then s.(feasible := s.feasible + 1, inc := Offer(s.inc, vIn, xIn))
               else if b > s.inc.value then
                 s.(entries := s.entries + [Entry(-b, s.counter, Node(i, vIn, wIn, b, xIn))], counter := s.counter + 1)
               else s.(pruned := s.pruned + 1)
  {
    var i := u.level + 1;
    var wIn := u.weight + inst.weights[i];
    var vIn := u.value + inst.values[i];
    var xIn := u.x[i := 1];
    var cand := Extend(inst, u, true);
    assert cand == Node(i, vIn, wIn, 0.0, xIn);
    if wIn <= inst.W {
      var b := CalculateBound(inst, cand);
      var nodeIn := WithBound(inst, cand);
      assert nodeIn == Node(i, vIn, wIn, b, xIn);
      assert TakeBranch(inst, s, u) == Place(inst, s, nodeIn, vIn, xIn);
      PlaceRules(inst, s, nodeIn, vIn, xIn);
    }
  }

  /** The leave branch's decisions: the child keeps the parent's value and
      weight with x[i] = 0; at the last level the parent's own value and
      vector are counted feasible and offered; above it the child is queued
      when its bound beats the incumbent and pruned when it does not. */
  lemma LeaveBranchRules(inst: Instance, s: SearchState, u: Node)
    requires inst.Valid() && Consistent(inst, u) && u.weight <= inst.W && u.level + 1 < inst.N()
    ensures var i := u.level + 1;
            var xEx := u.x[i := 0];
            var b := CalculateBound(inst, Node(i, u.value, u.weight, 0.0, xEx));
            LeaveBranch(inst, s, u)
            == if i == inst.N() - 1 then s.(feasible := s.feasible + 1, inc := Offer(s.inc, u.value, u.x))
               else if b > s.inc.value then
                 s.(entries := s.entries + [Entry(-b, s.counter, Node(i, u.value, u.weight, b, xEx))], counter := s.counter + 1)
               else s.(pruned := s.pruned + 1)
  {
    var i := u.level + 1;
    var xEx := u.x[i := 0];
    var cand := Extend(inst, u, false);
    assert cand == Node(i, u.value, u.weight, 0.0, xEx);
    var b := CalculateBound(inst, cand);
    var nodeEx := WithBound(inst, cand);
    assert nodeEx == Node(i, u.value, u.weight, b, xEx);
    assert LeaveBranch(inst, s, u) == Place(inst, s, nodeEx, u.value, u.x);
    PlaceRules(inst, s, nodeEx, u.value, u.x);
  }

  /** Expansion of node u: first the take branch, then the leave branch,
      each seeing the incumbent the previous one left. */
  method Expand(inst: Instance, s: SearchState, u: Node) returns (r: SearchState)
    requires inst.Valid() && SearchInvariant(inst, s)
    requires Consistent(inst, u) && u.weight <= inst.W && u.level + 1 < inst.N()
    ensures SearchInvariant(inst, r)
    ensures r.inc.value >= s.inc.value
    ensures r.feasible >= s.feasible
    ensures r == LeaveBranch(inst, TakeBranch(inst, s, u), u)
    ensures r.inc != s.inc ==> u.level + 1 == inst.N() - 1 && r.inc.value > s.inc.value
    ensures r.pruned + r.feasible + |r.entries| == s.pruned + s.feasible + |s.entries| + 2
    ensures Pending(r.entries, inst.N()) < Pending(s.entries, inst.N()) + Tree(inst.N() - 1 - u.level)
  {
    assert Tree(inst.N() - 1 - u.level) == 2 * Tree(inst.N() - 2 - u.level) + 1;
    r := LeaveBranch(inst, TakeBranch(inst, s, u), u);
  }

  /** Taking entry k off the queue keeps the rest well formed and lowers
      the termination measure by the entry's subtree. */
  lemma {:induction false} RemoveEntry(inst: Instance, f: seq<Entry>, next: nat, k: int)
    requires inst.Valid() && WellFormedFrontier(inst, f, next)
    requires 0 <= k < |f|
    ensures FrontierEntry(inst, f[k], next)
    ensures WellFormedFrontier(inst, f[..k] + f[k + 1..], next)
    ensures |f[..k] + f[k + 1..]| == |f| - 1
    ensures Pending(f[..k] + f[k + 1..], inst.N()) + Tree(inst.N() - 1 - f[k].node.level) == Pending(f, inst.N())
  {
    PendingRemove(f, k, inst.N());
    var g := f[..k] + f[k + 1..];
    forall a | 0 <= a < |g|
      ensures FrontierEntry(inst, g[a], next)
    {
      RemovedAt(f, k, a);
    }
    forall a, b | 0 <= a < b < |g|
      ensures g[a].seqNo < g[b].seqNo
    {
      RemovedAt(f, k, a);
      RemovedAt(f, k, b);
    }
  }

  /** Position a of a sequence with entry k removed. */
  lemma RemovedAt(f: seq<Entry>, k: int, a: int)
    requires 0 <= k < |f| && 0 <= a < |f| - 1
    ensures (f[..k] + f[k + 1..])[a] == f[if a < k then a else a + 1]
  {
  }

  /** The per-expansion counters: expansions, deepest expanded level and
      expansions per level. */
  datatype Tally = Tally(expanded: nat, maxDepth: int, perLevel: seq<nat>)

  /** The per-level counts add up to the expansions, and the maximum depth
      is the deepest level with an expansion (0 before any). */
  predicate TallyInvariant(t: Tally, n: nat) {
    && |t.perLevel| == n
    && Total(t.perLevel) == t.expanded
    && 0 <= t.maxDepth && (t.maxDepth == 0 || t.maxDepth < n)
    && (forall l :: 0 <= l < n && t.perLevel[l] > 0 ==> l <= t.maxDepth)
    && (t.maxDepth > 0 ==> t.perLevel[t.maxDepth] > 0)
  }

  /** Counting one expansion at level i. */
  function Record(t: Tally, i: int, n: nat): (r: Tally)
    requires TallyInvariant(t, n) && 0 <= i < n
    ensures TallyInvariant(r, n)
    ensures r.expanded == t.expanded + 1
    ensures r.perLevel[i] == t.perLevel[i] + 1
    ensures forall l :: 0 <= l < n && l != i ==> r.perLevel[l] == t.perLevel[l]
  {
    TotalIncrement(t.perLevel, i);
    Tally(t.expanded + 1, if t.maxDepth >= i then t.maxDepth else i, t.perLevel[i := t.perLevel[i] + 1])
  }

  /** Heap pop: the entry with the smallest key leaves the queue and its
      node is returned; nothing else in the state changes. */
  method Pop(inst: Instance, s: SearchState) returns (k: nat, u: Node, r: SearchState)
    requires inst.Valid() && SearchInvariant(inst, s)
    requires |s.entries| > 0
    ensures k < |s.entries| && u == s.entries[k].node
    ensures forall j :: 0 <= j < |s.entries| ==> KeyLe(s.entries[k], s.entries[j])
    ensures r == s.(entries := s.entries[..k] + s.entries[k + 1..])
    ensures SearchInvariant(inst, r) && |r.entries| == |s.entries| - 1
    ensures FrontierEntry(inst, s.entries[k], s.counter)
    ensures Pending(r.entries, inst.N()) + Tree(inst.N() - 1 - u.level) == Pending(s.entries, inst.N())
  {
    k := PopIndex(s.entries);
    u := s.entries[k].node;
    RemoveEntry(inst, s.entries, s.counter, k);
    r := s.(entries := s.entries[..k] + s.entries[k + 1..]);
  }

  /** One pass of the loop after the budget checks: pop the entry with the
      best key, count it as pruned when its bound does not beat the
      incumbent, and otherwise expand it and count the expansion. The
      source's skip of a node with no item left to decide cannot happen:
      such a node only exists when there are no items, and then its bound
      is 0 and it is pruned. */
  method Step(inst: Instance, s: SearchState, t: Tally) returns (s': SearchState, t': Tally, k: nat, u: Node)
    requires inst.Valid() && SearchInvariant(inst, s) && TallyInvariant(t, inst.N())
    requires |s.entries| > 0
    ensures k < |s.entries| && u == s.entries[k].node
    ensures u.value <= u.bound
    ensures forall j :: 0 <= j < |s.entries| ==> KeyLe(s.entries[k], s.entries[j])
    ensures u.bound <= s.inc.value ==>
              t' == t && s' == s.(entries := s.entries[..k] + s.entries[k + 1..], pruned := s.pruned + 1)
    ensures u.bound > s.inc.value ==>
              && u.level + 1 < inst.N()
              && t' == Record(t, u.level + 1, inst.N())
              && s' == LeaveBranch(inst, TakeBranch(inst, s.(entries := s.entries[..k] + s.entries[k + 1..]), u), u)
    ensures |s.entries| == 1 ==>
              && u == s.entries[0].node
              && (u.bound <= s.inc.value ==> |s'.entries| == 0 && t' == t && s'.inc == s.inc)
              && (u.bound > s.inc.value ==> t'.expanded == t.expanded + 1)
    ensures SearchInvariant(inst, s') && TallyInvariant(t', inst.N())
    ensures s'.inc.value >= s.inc.value
    ensures s'.inc != s.inc ==> s'.inc.value > s.inc.value
    ensures s'.feasible >= s.feasible
    ensures t'.expanded == t.expanded || t'.expanded == t.expanded + 1
    ensures t'.expanded == t.expanded ==> s'.inc == s.inc
    ensures inst.N() == 0 ==> t'.expanded == t.expanded
    ensures t'.expanded + s.pruned + s.feasible + |s.entries|
            == t.expanded + s'.pruned + s'.feasible + |s'.entries|
    ensures Pending(s'.entries, inst.N()) < Pending(s.entries, inst.N())
  {
    var n := inst.N();
    var rest;
    k, u, rest := Pop(inst, s);
    s' := rest;
    t' := t;

    var i := u.level + 1;
    if u.bound <= s'.inc.value {
      s' := s'.(pruned := s'.pruned + 1);
    } else if i >= n {
      assert false;
    } else {
      s' := Expand(inst, s', u);
      t' := Record(t, i, n);
    }
  }

  /** The search loop, from a queue holding only the root: each pass first
      checks the time limit (`deadline`: the number of the first check at
      which the elapsed time has reached the limit; None: no limit) and
      the expansion budget `maxNodes`, then runs one Step. */
  method BestFirst(inst: Instance, init: SearchState, maxNodes: Option<nat>, deadline: Option<nat>)
    returns (s: SearchState, t: Tally)
    requires inst.Valid() && SearchInvariant(inst, init)
    requires |init.entries| == 1 && init.pruned == 0 && init.feasible == 1
    ensures SearchInvariant(inst, s) && TallyInvariant(t, inst.N())
    ensures s.inc.value >= init.inc.value
    ensures t.expanded == 0 ==> s.inc == init.inc
    ensures inst.N() == 0 ==> t.expanded == 0
    ensures s.feasible >= 1
    ensures t.expanded + 2 == s.pruned + s.feasible + |s.entries|
    ensures maxNodes.Some? ==> t.expanded <= maxNodes.value
    ensures maxNodes.None? && deadline.None? ==> |s.entries| == 0
    ensures maxNodes == Some(0) || deadline == Some(0) ==> t.expanded == 0
    ensures init.entries[0].node.bound <= init.inc.value ==> t.expanded == 0
    ensures && init.entries[0].node.bound > init.inc.value
            && (maxNodes.None? || maxNodes.value > 0) && (deadline.None? || deadline.value > 0)
            ==> t.expanded >= 1
  {
    var n := inst.N();
    t := Tally(0, 0, seq(n, _ => 0));
    TotalZeros(n);
    s := init;
    var rootBound := init.entries[0].node.bound;
    var checks: nat := 0;
    while |s.entries| > 0
      invariant SearchInvariant(inst, s)
      invariant s.inc.value >= init.inc.value
      invariant t.expanded == 0 ==> s.inc == init.inc
      invariant TallyInvariant(t, n)
      invariant n == 0 ==> t.expanded == 0
      invariant s.feasible >= 1
      invariant t.expanded + 2 == s.pruned + s.feasible + |s.entries|
      invariant maxNodes.Some? ==> t.expanded <= maxNodes.value
      invariant deadline.Some? ==> checks <= deadline.value
      invariant t.expanded <= checks
      invariant checks == 0 ==> s == init
      invariant checks > 0 && rootBound <= init.inc.value ==> |s.entries| == 0 && t.expanded == 0
      invariant checks > 0 && rootBound > init.inc.value ==> t.expanded >= 1
      decreases Pending(s.entries, n)
    {
      if deadline.Some? && checks >= deadline.value {
        break;
      }
      if maxNodes.Some? && t.expanded >= maxNodes.value {
        break;
      }
      checks := checks + 1;
      var k, u;
      s, t, k, u := Step(inst, s, t);
    }
  }

  /** The solver: seed the incumbent with the greedy solution, queue the
      root (level -1, nothing decided) under its bound, run the search and
      report the incumbent with the metrics. */
  method Solve(inst: Instance, maxNodes: Option<nat>, deadline: Option<nat>) returns (out: Outcome)
    requires inst.Valid()
    ensures Feasible(inst, Incumbent(out.bestValue, out.bestX))
    ensures out.bestValue >= GreedyPrimal(inst).value
    ensures maxNodes.Some? ==> out.metrics.expanded <= maxNodes.value
    ensures maxNodes == Some(0) || deadline == Some(0) ==>
              Incumbent(out.bestValue, out.bestX) == GreedyPrimal(inst) && out.metrics.expanded == 0
    ensures inst.N() == 0 ==> out.bestValue == 0.0 && out.bestX == [] && out.metrics.expanded == 0
    ensures TallyInvariant(Tally(out.metrics.expanded, out.metrics.maxDepth, out.metrics.nodesPerLevel), inst.N())
    ensures out.metrics.feasible >= 1
    ensures maxNodes.None? && deadline.None? ==>
              out.metrics.pruned + out.metrics.feasible == out.metrics.expanded + 2
    ensures CalculateBound(inst, Node(-1, 0.0, 0.0, 0.0, Zeros(inst.N()))) <= GreedyPrimal(inst).value ==>
              Incumbent(out.bestValue, out.bestX) == GreedyPrimal(inst) && out.metrics.expanded == 0
    ensures && CalculateBound(inst, Node(-1, 0.0, 0.0, 0.0, Zeros(inst.N()))) > GreedyPrimal(inst).value
            && (maxNodes.None? || maxNodes.value > 0) && (deadline.None? || deadline.value > 0)
            ==> out.metrics.expanded >= 1
  {
    var n := inst.N();
    var greedy := GreedyPrimal(inst);
    var rootX := Zeros(n);
    SelectedSumZeros(inst.values, n);
    SelectedSumZeros(inst.weights, n);
    var rootBound := CalculateBound(inst, Node(-1, 0.0, 0.0, 0.0, rootX));
    var root := Node(-1, 0.0, 0.0, rootBound, rootX);
    BoundIgnoresStoredBound(inst, root, 0.0);
    BoundBelowRemaining(inst, Node(-1, 0.0, 0.0, 0.0, rootX));
    var init := SearchState(greedy, [Entry(-root.bound, 0, root)], 1, 0, 1);

    var s, t := BestFirst(inst, init, maxNodes, deadline);
    out := Outcome(s.inc.value, s.inc.x, Metrics(t.expanded, s.pruned, s.feasible, t.maxDepth, t.perLevel));
  }

  /** The wrapper: prepare the instance (ratio sort) and run the search.
      The returned vector is indexed in ratio order. */
  method SolveKnapsackWithBnb(items: seq<Item>, capacity: real, maxNodes: Option<nat>, deadline: Option<nat>)
    returns (inst: Instance, out: Outcome)
    requires ValidItems(items) && capacity >= 0.0
    ensures inst.Valid() && inst.W == capacity
    ensures multiset(inst.items) == multiset(items)
    ensures ValidItems(inst.items) && SortedByRatio(inst.items)
    ensures |out.bestX| == inst.N() == |items|
    ensures SelectedSum(inst.weights, out.bestX) <= capacity
    ensures out.bestValue == SelectedSum(inst.values, out.bestX)
    ensures out.bestValue >= GreedyPrimal(inst).value
    ensures maxNodes.Some? ==> out.metrics.expanded <= maxNodes.value
    ensures maxNodes == Some(0) || deadline == Some(0) ==>
              Incumbent(out.bestValue, out.bestX) == GreedyPrimal(inst) && out.metrics.expanded == 0
    ensures |items| == 0 ==> out.bestValue == 0.0 && out.bestX == [] && out.metrics.expanded == 0
    ensures TallyInvariant(Tally(out.metrics.expanded, out.metrics.maxDepth, out.metrics.nodesPerLevel), inst.N())
    ensures out.metrics.feasible >= 1
    ensures maxNodes.None? && deadline.None? ==>
              out.metrics.pruned + out.metrics.feasible == out.metrics.expanded + 2
  {
    inst := Prepare(items, capacity);
    assert |inst.items| == |multiset(inst.items)| == |multiset(items)| == |items|;
    out := Solve(inst, maxNodes, deadline);
  }

  /** Items (value, weight) = (7, 6), (5, 5), (5, 5), (0.1, 100), already in
      ratio order, with capacity 10. */
  function ExactFillExample(): Instance {
    Instance([Item(0, 7.0, 6.0), Item(1, 5.0, 5.0), Item(2, 5.0, 5.0), Item(3, 0.1, 100.0)],
             [7.0, 5.0, 5.0, 0.1], [6.0, 5.0, 5.0, 100.0], 10.0)
  }

  /** The selected sums of the two vectors the example below uses. */
  lemma ExactFillSums()
    ensures var inst := ExactFillExample();
            && SelectedSum(inst.values, [0, 1, 1, 0]) == 10.0 && SelectedSum(inst.weights, [0, 1, 1, 0]) == 10.0
            && SelectedSum(inst.values, [0, 1, 0, 0]) == 5.0 && SelectedSum(inst.weights, [0, 1, 0, 0]) == 5.0
  {
    var inst := ExactFillExample();
    var both: seq<Bit> := [0, 1, 1, 0];
    var second: seq<Bit> := [0, 1, 0, 0];
    assert both[..3][..2] == second[..3][..2] == [0, 1] && [0, 1][..1] == [0] && [0][..0] == [];
    assert SelectedSum(inst.values, [0, 1]) == 5.0 && SelectedSum(inst.weights, [0, 1]) == 5.0;
  }

  /** The bounds along the optimal path of the example: the node holding the
      second item, its take child (the capacity filled exactly) and its leave
      child. */
  predicate ExactFillBounds(inst: Instance)
    requires inst == ExactFillExample()
  {
    && CalculateBound(inst, Node(1, 5.0, 5.0, 0.0, [0, 1, 0, 0])) == 10.0
    && CalculateBound(inst, Node(2, 10.0, 10.0, 0.0, [0, 1, 1, 0])) == 0.0
    && CalculateBound(inst, Node(2, 5.0, 5.0, 0.0, [0, 1, 0, 0])) < 7.0
  }

  lemma ExactFillBoundValues()
    ensures ExactFillBounds(ExactFillExample())
  {
  }

  /** Why the search is not optimal: on the instance above the greedy keeps
      only the first item (value 7), while the two (5, 5) items fit together
      for 10. The node that took the second item is queued (bound 10 beats
      7), but its take child fills the capacity exactly, so its bound is 0
      and it is pruned although it is a complete feasible solution of value
      10; the leave child's bound stays below 7. */
  lemma ExactFillPruned(s: SearchState)
    requires s.inc.value >= 7.0
    ensures var inst := ExactFillExample();
            && inst.Valid()
            && GreedyPrimal(inst).value == 7.0
            && Feasible(inst, Incumbent(10.0, [0, 1, 1, 0]))
            && ExactFillBounds(inst)
            && Consistent(inst, Node(1, 5.0, 5.0, 10.0, [0, 1, 0, 0]))
            && TakeBranch(inst, s, Node(1, 5.0, 5.0, 10.0, [0, 1, 0, 0])) == s.(pruned := s.pruned + 1)
  {
    ExactFillSums();
    ExactFillBoundValues();
  }
}

=== FILE: sums.dfy ===
/** Sums over real-valued columns: contiguous ranges (used by the bound's
    greedy fill) and 0/1 selections (used by every decision vector). */
module Sums {

  /** One entry of a decision vector: 1 = item taken, 0 = item left out. */
  type Bit = b: int | 0 <= b <= 1

  predicate NonNegative(a: seq<real>) {
    forall k :: 0 <= k < |a| ==> a[k] >= 0.0
  }

  /** a[lo] + a[lo+1] + ... + a[hi-1]. */
  function RangeSum(a: seq<real>, lo: int, hi: int): real
    requires 0 <= lo <= hi <= |a|
    decreases hi - lo
  {
    if lo == hi then 0.0 else a[lo] + RangeSum(a, lo + 1, hi)
  }

  /** Sum of a[k] over the positions k < |x| with x[k] == 1. */
  function SelectedSum(a: seq<real>, x: seq<Bit>): real
    requires |x| <= |a|
  {
    if |x| == 0 then 0.0
    else SelectedSum(a, x[..|x| - 1]) + (if x[|x| - 1] == 1 then a[|x| - 1] else 0.0)
  }

  /** The all-zero decision vector of length n. */
  function Zeros(n: nat): (x: seq<Bit>)
    ensures |x| == n
    ensures forall k :: 0 <= k < n ==> x[k] == 0
  {
    seq(n, _ => 0)
  }

  /** Sum of a sequence of counters. */
  function Total(c: seq<nat>): nat {
    if |c| == 0 then 0 else Total(c[..|c| - 1]) + c[|c| - 1]
  }

  lemma {:induction false} RangeSumNonNegative(a: seq<real>, lo: int, hi: int)
    requires NonNegative(a)
    requires 0 <= lo <= hi <= |a|
    ensures RangeSum(a, lo, hi) >= 0.0
    decreases hi - lo
  {
    if lo < hi {
      RangeSumNonNegative(a, lo + 1, hi);
    }
  }

  /** Extending a range by one element on the right adds that element. */
  lemma {:induction false} RangeSumSnoc(a: seq<real>, lo: int, hi: int)
    requires 0 <= lo <= hi < |a|
    ensures RangeSum(a, lo, hi + 1) == RangeSum(a, lo, hi) + a[hi]
    decreases hi - lo
  {
    if lo < hi {
      RangeSumSnoc(a, lo + 1, hi);
    }
  }

  /** With non-negative entries a longer range never sums to less. */
  lemma {:induction false} RangeSumMonotone(a: seq<real>, lo: int, hi: int, hi': int)
    requires NonNegative(a)
    requires 0 <= lo <= hi <= hi' <= |a|
    ensures RangeSum(a, lo, hi) <= RangeSum(a, lo, hi')
    decreases hi' - hi
  {
    if hi < hi' {
      RangeSumMonotone(a, lo, hi, hi' - 1);
      RangeSumSnoc(a, lo, hi' - 1);
    }
  }

  lemma {:induction false} SelectedSumNonNegative(a: seq<real>, x: seq<Bit>)
    requires NonNegative(a)
    requires |x| <= |a|
    ensures SelectedSum(a, x) >= 0.0
  {
    if |x| > 0 {
      SelectedSumNonNegative(a, x[..|x| - 1]);
    }
  }

  lemma {:induction false} SelectedSumZeros(a: seq<real>, n: nat)
    requires n <= |a|
    ensures SelectedSum(a, Zeros(n)) == 0.0
  {
    if n > 0 {
      assert Zeros(n)[..n - 1] == Zeros(n - 1);
      SelectedSumZeros(a, n - 1);
    }
  }

  /** Appending one decision adds the entry's value exactly when it is taken. */
  lemma SelectedSumSnoc(a: seq<real>, x: seq<Bit>, b: Bit)
    requires |x| < |a|
    ensures SelectedSum(a, x + [b]) == SelectedSum(a, x) + (if b == 1 then a[|x|] else 0.0)
  {
    assert (x + [b])[..|x|] == x;
  }

  /** Switching one decision from 0 to 1 adds exactly that entry. */
  lemma {:induction false} SelectedSumSetOne(a: seq<real>, x: seq<Bit>, i: int)
    requires |x| <= |a|
    requires 0 <= i < |x| && x[i] == 0
    ensures SelectedSum(a, x[i := 1]) == SelectedSum(a, x) + a[i]
  {
    var y := x[i := 1];
    var m := |x| - 1;
    if i < m {
      assert y[..m] == x[..m][i := 1];
      SelectedSumSetOne(a, x[..m], i);
    } else {
      assert y[..m] == x[..m];
    }
  }

  /** A prefix of a selection never weighs more than the whole selection. */
  lemma {:induction false} SelectedSumPrefixBelow(a: seq<real>, x: seq<Bit>, k: int)
    requires NonNegative(a)
    requires |x| <= |a|
    requires 0 <= k <= |x|
    ensures SelectedSum(a, x[..k]) <= SelectedSum(a, x)
    decreases |x| - k
  {
    if k < |x| {
      var m := |x| - 1;
      assert x[..m][..k] == x[..k];
      SelectedSumPrefixBelow(a, x[..m], k);
    } else {
      assert x[..k] == x;
    }
  }

  /** Incrementing one counter increments the total by one. */
  lemma {:induction false} TotalIncrement(c: seq<nat>, i: int)
    requires 0 <= i < |c|
    ensures Total(c[i := c[i] + 1]) == Total(c) + 1
  {
    var d := c[i := c[i] + 1];
    var m := |c| - 1;
    if i < m {
      assert d[..m] == c[..m][i := c[i] + 1];
      TotalIncrement(c[..m], i);
    } else {
      assert d[..m] == c[..m];
    }
  }

  lemma {:induction false} TotalZeros(n: nat)
    ensures Total(seq(n, _ => 0)) == 0
  {
    if n > 0 {
      assert seq(n, _ => 0)[..n - 1] == seq(n - 1, _ => 0);
      TotalZeros(n - 1);
    }
  }
}
